=== FILE: README.md ===
# Crawl and resume bookkeeping of the Indian Kanoon scraper

This project models the bookkeeping core of `IndianKanoonScraper` in `py.py`: a sequential
crawler that fetches case pages by numeric id, appends found judgments to a corpus file,
and keeps two id files (`processed_ids.txt`, `failed_ids.txt`) so that an interrupted crawl
resumes without fetching an id twice.

With network, HTML and timing replaced by inputs, what remains is a deterministic state
machine over an immutable `Scraper.State`:

- the sets `processed` and `failed`, and the lines of their two append-only files
  (`processedLog`, `failedLog`);
- the proxy list and the round-robin cursor `proxyIndex`;
- the trace of GET requests issued (the case id, whose page URL is `Scraper.CaseUrl` of it,
  and the proxy mapping), and the records appended to the corpus file, whose text is `Record.CorpusText` of them.

The outside world is an `Env`. The k-th GET ever issued receives `net(k)`, which is either a
transport exception or a response with a status and an extracted page. The page holds the
judgments text and the h1 title, each optional. `isErrorStatus` is the status test of
`raise_for_status`. `hasScheme` says whether `urlparse` finds a scheme in a proxy entry. `iterate` is the order in
which Python iterates over a set of ids: any enumeration of each set.

Modules follow the structure of the class:

- `Proxy`: `get_next_proxy` and its cyclic behaviour.
- `Scraper`: `fetch_case`, `process_single_case` and `save_cases`.
- `Record`: the record block written to the corpus, with a reader that inverts it.
- `Retry`: `retry_failed_cases`.
- `Batching`: the batch ranges of the `__main__` loop.
- `Crawl`: the `__main__` block.
- `Decimal`: Python's printing of an int inside the f-strings.
- `Wrappers`: `Option` and sequence/set helpers.

The retry pass is inert as written. `fetch_case` returns early for every id in
`failed_ids`, and every id the retry pass tries comes from that set. So the pass never
issues a request and never finds a record. Nothing leaves the failed set. The only effect
is that `failed_ids.txt` is rewritten as one line per failed id. Its docstring suggests it
was meant to re-attempt failed ids; the model follows the code, and `Retry.RetryFailedIsInert`
proves what the code does.

## Model

| member | source | states |
|---|---|---|
| `Decimal.IntRoundTrip` | py.py:161 | the decimal text of any id reads back as that id, so distinct ids print differently |
| `Record.Format` | py.py:159-164 | a record block is two 100-character rules plus 25 fixed characters, plus the id, title and text |
| `Record.FormatRoundTrip` | py.py:159-164 | the block of a record with a one-line title reads back as exactly that record (id, title and text) |
| `Record.CorpusGrows` | py.py:159-164 | the corpus file is append-only: appending records keeps the earlier text as a prefix of the new text |
| `Proxy.NormalizeLegs` | py.py:74-86 | both legs end with the entry; an entry with a scheme is used as-is on both legs; the legs are equal exactly when the entry has a scheme; a bare entry gets `http://` on one leg and `https://` on the other |
| `Proxy.NextProxy` | py.py:66-72 | None exactly when the list is empty, and the cursor is then unchanged; otherwise the entry under the cursor, with the cursor moving to `(i + 1) % K`, which stays in range |
| `Proxy.RotateCyclic` | py.py:66-72 | over n calls, call k gets entry `(i0 + k) % K`, and the cursor ends at `(i0 + n) % K` |
| `Proxy.RotateWithoutProxies` | py.py:68-69 | with no proxies every call yields None and the cursor never moves |
| `Proxy.FullCycle` | py.py:71-72 | K calls serve each entry once, in list order rotated to start at the cursor, and return the cursor to its start |
| `Scraper.CaseUrlInjective` | py.py:103 | two ids with the same page URL are the same id, so a request's case id and its URL determine each other |
| `Scraper.Load` | py.py:36-53 | the logs are the two id files as read and the sets hold exactly their ids; it keeps the given proxy list with the cursor at 0, and nothing has been requested or written; disjoint files give the full invariant |
| `Scraper.Attempt` | py.py:108-118 | one GET, or two when the first answer is status 429; every GET goes to the same URL through the same proxy; the answer used is the last one; nothing else changes |
| `Scraper.FetchCase` | py.py:92-152 | a known id returns None with nothing changed; any other id is added to exactly one set and its file; the cursor moves once; one or two GETs as in `Attempt`; failed exactly on a transport error or error status; a record exactly when the judgment is present, titled by the page or `Case {id}`; the invariants are kept |
| `Scraper.ProcessSingleCase` | py.py:154-167 | the id becomes known; a known id changes nothing; an unknown id is appended to exactly one id file and the files only grow; the cursor moves once; one GET, or two after a first 429, all for this id's page through the proxy under the cursor; it is failed exactly when the last answer is a failure; a record is appended exactly when the fetch passed and found a judgment, and it is the record built from the last answer, for a now processed id |
| `Scraper.Pending` | py.py:179-180 | the ids attempted are exactly those of [start, end] in neither set, in ascending order |
| `Scraper.ProcessAll` | py.py:185-186 | after the loop the known ids are the old ones plus the list; sets only grow; the output and both id files are only appended to; the invariants are kept |
| `Scraper.ProcessAllAttempts` | py.py:185-186 | over distinct unknown ids, every id is fetched, and it ends failed exactly when the last answer for its page is a failure and processed exactly when it is not |
| `Scraper.ProcessAllInOrder` | py.py:185-186 | for an ascending id list the loop's GETs go to the pages in ascending id order |
| `Scraper.ProcessAllRecords` | py.py:185-186 | every appended record is for a listed id that is now processed; an ascending list yields records in ascending id order |
| `Scraper.LastRequestFor` | py.py:108-118 | the position found is a GET for the case's page with no later one for it in the window; none is found exactly when the window holds no GET for it |
| `Scraper.Harvested` | py.py:154-164 | a record the answers yield for a case carries that case's id |
| `Scraper.HarvestMembers` | py.py:185-186 | a record is in the harvest of a list exactly when it is the record the answers yield for one of the listed ids |
| `Scraper.ProcessAllHarvest` | py.py:185-186 | for duplicate-free unknown ids, the loop appends exactly, in list order, the records that the last answer for each id's page yields, and nothing else |
| `Scraper.SaveCases` | py.py:172-192 | afterwards every id of [start, end] is known; both id files are only appended to; each new record is for a previously unknown id of the range, now processed, in ascending id order; the new records are exactly the harvest of the pending ids; every GET is for a pending id, in ascending id order; every pending id is fetched and classified by the last answer for its page |
| `Scraper.SaveCasesHarvest` | py.py:172-192 | both directions: every new record is the one the answers yield for a pending id, and every pending id the answers yield a record for has it appended |
| `Retry.IndexOf` | py.py:222 | the position found holds the id, and no earlier position does |
| `Retry.Remove` | py.py:222 | the first occurrence of the id is dropped and the other ids keep their order; an absent id leaves the list as it is; a duplicate-free list stays duplicate-free without that id |
| `Retry.RetryPass` | py.py:209-231 | a pass only shrinks the working copy, keeps it duplicate-free, and keeps the files matching the sets |
| `Retry.RetryPasses` | py.py:205-235 | the same over up to `max_retries` passes with the early stop |
| `Retry.RetryFailed` | py.py:194-241 | the final failed set is a subset of the initial one; the files still match the sets; a non-empty failed set leaves the failed file as `iterate` of the rebuilt set, which lists each of its ids once |
| `Retry.RetryPassInert` | py.py:209-225 | a pass over ids that are all in `failed_ids` leaves the working copy and the scraper unchanged, since each fetch is skipped |
| `Retry.RetryPassesInert` | py.py:205-235 | so do all the passes |
| `Retry.RetryFailedIsInert` | py.py:194-241 | with no failed ids the retry is a no-op; otherwise only the failed file is rewritten, as `iterate` of the unchanged failed set, which lists each failed id exactly once |
| `Retry.RetryFailedKeepsOutcomes` | py.py:237-241 | after the retry both sets, the request trace, the output and the cursor are as before, and the invariants hold |
| `Batching.BatchesFrom` | py.py:255-256 | batches lie inside [start, total] and are at most `size` long; all but the last are exactly `size` long; each starts right after the previous one ends; the first starts at `start` and the last ends at `total` |
| `Batching.BatchesCover` | py.py:255-256 | an id is in some batch exactly when it lies in [start, total] |
| `Batching.BatchesOrdered` | py.py:255-256 | every batch lies wholly below every later batch, so no id is in two batches |
| `Batching.BatchesPartition` | py.py:250-256 | the entry loop's batches cover exactly 1..total, are pairwise disjoint, and are at most `batch_size` long |
| `Crawl.RunBatches` | py.py:255-265 | after all batches the known ids are the old ones plus every id covered; sets only grow; the output and both id files are only appended to; the invariants are kept |
| `Crawl.CrawlResolvesRange` | py.py:243-274 | after the whole run the known ids are exactly the old ones plus 1..total; no outcome is lost; the files match the sets; disjoint sets stay disjoint |
| `Crawl.CrawlFromFilesResolvesAll` | py.py:243-274 | a run from the two id files leaves every id of 1..10000 known and keeps every id the files recorded; the files match the sets; disjoint files give disjoint sets |
| `Crawl.ResumeSkipsKnownIds` | py.py:41-53 | reloading from the two files rebuilds the same sets, and an id either file records is then skipped without a request |

## Left out

- HTTP is not modelled: the session, headers, the 15 s timeout and how `raise_for_status` classifies statuses (`isErrorStatus` is a parameter). A GET's result is `Env.net`, indexed by how many GETs came before. The network never runs out of answers.
- HTML extraction with BeautifulSoup (lines 128-145) is left out. A page is given already extracted: optional judgment text, optional h1 text.
- Proxy scheme detection by `urlparse` is the parameter `hasScheme`.
- Reading the files at start-up is not modelled: `int(line.strip())` parsing and `load_proxies` (lines 42-64). `Scraper.Load` takes the file contents as id sequences and the proxy list as given.
- Delays, naps and randomness (`_random_delay`, `time.sleep`, `random.random() < 0.1`) do not affect the state. Logging and the unused `max_workers` are left out too.
- The `except Exception` around each batch and its 120 s cooldown (lines 267-270) are left out. No modelled operation raises.
- Write failures on the three files are not modelled. Text written before this run is not part of the model: `output` holds only the records appended during the run.
- Python's set iteration order is unspecified. `Retry.RetryFailed` therefore takes two parameters: `order`, the order of `list(failed_ids)`, which may be any enumeration of the failed set, and `iterate`, the order in which the rebuilt set is written back (lines 238-241), which may be any enumeration of each set. `Crawl.RunCrawl` passes `iterate` of the failed set as `order`, since `list(failed_ids)` also iterates the set.
- A request records the case id rather than the URL string; `Scraper.CaseUrlInjective` shows that the two determine each other.
- Retry.Remove: an id missing from the working list would raise `ValueError` in Python, but the model leaves the list unchanged. This case cannot occur, because each snapshot id is removed at most once.
- Crawl.RunCrawl requires a batch size of at least 1. `range` with step 0 raises, and the program's batch size is 50.
- Record.FormatRoundTrip: is stated only for titles without a newline. A title that spans lines makes the block ambiguous to read back, while the id is still the first line.

=== FILE: batches.dfy ===
/** The batch ranges of the crawl entry point: `range(1, total + 1, size)` with each batch
    ending at `min(start + size - 1, total)`. */
module Batching {
  import opened Wrappers

  function Min(a: int, b: int): int {
    if a <= b then a else b
  }

  /** The batches whose starts are `start`, `start + size`, ... up to `total`. */
  function BatchesFrom(start: int, total: int, size: int): (r: seq<(int, int)>)
    requires size >= 1
    ensures |r| == 0 <==> start > total
    ensures forall k :: 0 <= k < |r| ==> start <= r[k].0 <= r[k].1 <= total && r[k].1 - r[k].0 < size
    ensures forall k :: 0 <= k < |r| - 1 ==> r[k].1 - r[k].0 == size - 1
    ensures forall j, k :: 0 <= j < |r| && k == j + 1 < |r| ==> r[k].0 == r[j].1 + 1
    ensures |r| > 0 ==> r[0].0 == start && r[|r| - 1].1 == total
    decreases if start <= total then total - start + 1 else 0
  {
    if start > total then []
    else
      var rest := BatchesFrom(start + size, total, size);
      var hi := Min(start + size - 1, total);
      var r := [(start, hi)] + rest;
      assert r[0] == (start, hi);
      assert forall k :: 1 <= k < |r| ==> r[k] == rest[k - 1];
      assert |rest| > 0 ==> hi == start + size - 1 && rest[0].0 == hi + 1;
      r
  }

  /** The batches of the entry loop. */
  function Batches(total: int, size: int): seq<(int, int)>
    requires size >= 1
  {
    BatchesFrom(1, total, size)
  }

  /** Every id some batch covers. */
  function Covered(bs: seq<(int, int)>): set<int> {
    if |bs| == 0 then {} else Range(bs[0].0, bs[0].1) + Covered(bs[1..])
  }

  /** The batches together cover exactly [start, total]. */
  lemma {:induction false} BatchesCover(start: int, total: int, size: int)
    requires size >= 1
    ensures forall x :: x in Covered(BatchesFrom(start, total, size)) <==> start <= x <= total
    decreases if start <= total then total - start + 1 else 0
  {
    if start <= total {
      var hi := Min(start + size - 1, total);
      var rest := BatchesFrom(start + size, total, size);
      var r := [(start, hi)] + rest;
      assert BatchesFrom(start, total, size) == r;
      BatchesCover(start + size, total, size);
      assert r[1..] == rest;
      assert Covered(r) == Range(start, hi) + Covered(rest);
    }
  }

  /** Earlier batches lie wholly below later ones, so no id is in two batches. */
  lemma BatchesOrdered(start: int, total: int, size: int)
    requires size >= 1
    ensures var r := BatchesFrom(start, total, size);
      forall j, k :: 0 <= j < k < |r| ==> r[j].1 < r[k].0
  {
    var r := BatchesFrom(start, total, size);
    forall j, k | 0 <= j < k < |r|
      ensures r[j].1 < r[k].0
    {
      StepsApart(r, j, k);
    }
  }

  lemma {:induction false} StepsApart(r: seq<(int, int)>, j: nat, k: nat)
    requires j < k < |r|
    requires forall i :: 0 <= i < |r| ==> r[i].0 <= r[i].1
    requires forall i, i' :: 0 <= i < |r| && i' == i + 1 < |r| ==> r[i'].0 == r[i].1 + 1
    ensures r[j].1 < r[k].0
    decreases k - j
  {
    assert r[k].0 == r[k - 1].1 + 1;
    if k > j + 1 {
      StepsApart(r, j, k - 1);
    }
  }

  /** The batches of the entry loop are contiguous, at most `size` long, pairwise disjoint, and
      cover exactly 1..total. */
  lemma BatchesPartition(total: int, size: int)
    requires size >= 1
    ensures Covered(Batches(total, size)) == Range(1, total)
    ensures forall j, k :: 0 <= j < k < |Batches(total, size)| ==> Batches(total, size)[j].1 < Batches(total, size)[k].0
    ensures forall k :: 0 <= k < |Batches(total, size)| ==>
      1 <= Batches(total, size)[k].0 <= Batches(total, size)[k].1 <= total
      && Batches(total, size)[k].1 - Batches(total, size)[k].0 + 1 <= size
  {
    var r := Batches(total, size);
    assert r == BatchesFrom(1, total, size);
    BatchesCover(1, total, size);
    assert forall x :: x in Covered(r) <==> x in Range(1, total);
    BatchesOrdered(1, total, size);
  }
}

=== FILE: crawl.dfy ===
/** The entry point: the crawl over 1..total in batches, then the retry of failed ids. */
module Crawl {
  import opened Wrappers
  import opened Scraper
  import opened Batching
  import Retry

  const TotalCases := 10000
  const BatchSize := 50
  const MaxRetries := 3

  /** `save_cases` over each batch in turn. */
  function RunBatches(env: Env, s: State, bs: seq<(int, int)>): (t: State)
    requires CursorOk(s)
    ensures CursorOk(t) && (Inv(s) ==> Inv(t)) && (LogsAgree(s) ==> LogsAgree(t))
    ensures ResolvedIds(t) == ResolvedIds(s) + Covered(bs)
    ensures s.processed <= t.processed && s.failed <= t.failed && s.output <= t.output
    ensures s.processedLog <= t.processedLog && s.failedLog <= t.failedLog
    decreases |bs|
  {
    if |bs| == 0 then s
    else RunBatches(env, SaveCases(env, s, bs[0].0, bs[0].1), bs[1..])
  }

  /** The crawl of 1..total in batches of `size`, then the retry pass. `iterate` is Python's
      iteration order over a set: it orders both the working copy `list(failed_ids)` and the
      rewritten failed file. */
  function RunCrawl(env: Env, s: State, total: int, size: int, iterate: set<int> -> seq<int>): State
    requires CursorOk(s) && LogsAgree(s) && size >= 1 && Retry.IsIterationOrder(iterate)
  {
    var t := RunBatches(env, s, Batches(total, size));
    Retry.RetryFailed(env, t, iterate(t.failed), iterate, MaxRetries)
  }

  /** The `__main__` block, from the contents of the two id files and the proxy list. */
  function CrawlFromFiles(env: Env, processedLog: seq<int>, failedLog: seq<int>, proxies: seq<string>,
                         iterate: set<int> -> seq<int>): State
    requires Retry.IsIterationOrder(iterate)
  {
    RunCrawl(env, Load(processedLog, failedLog, proxies), TotalCases, BatchSize, iterate)
  }

  /** After the crawl every id of 1..total has exactly the outcomes it had before or a new one,
      no known outcome is lost, the files still match the sets, and disjoint sets stay disjoint. */
  lemma CrawlResolvesRange(env: Env, s: State, total: int, size: int, iterate: set<int> -> seq<int>)
    requires CursorOk(s) && LogsAgree(s) && size >= 1 && Retry.IsIterationOrder(iterate)
    ensures var t := RunCrawl(env, s, total, size, iterate);
      && ResolvedIds(t) == ResolvedIds(s) + Range(1, total)
      && s.processed <= t.processed && s.failed <= t.failed
      && LogsAgree(t) && (Inv(s) ==> Inv(t))
  {
    BatchesPartition(total, size);
    var t := RunBatches(env, s, Batches(total, size));
    Retry.RetryFailedIsInert(env, t, iterate(t.failed), iterate, MaxRetries);
  }

  /** Restarting from the two files rebuilds the same sets, so no id either file records is
      fetched again. */
  lemma ResumeSkipsKnownIds(env: Env, s: State, id: int)
    requires LogsAgree(s) && Resolved(s, id)
    ensures var s' := Load(s.processedLog, s.failedLog, s.proxies);
      && s'.processed == s.processed && s'.failed == s.failed
      && FetchCase(env, s', id) == (None, s')
  {
  }
  /** A run from the two id files leaves every id of 1..10000 known, keeps every id the files
      recorded, and keeps the sets disjoint when the files were. */
  lemma CrawlFromFilesResolvesAll(env: Env, processedLog: seq<int>, failedLog: seq<int>, proxies: seq<string>,
                                  iterate: set<int> -> seq<int>)
    requires Retry.IsIterationOrder(iterate)
    ensures var t := CrawlFromFiles(env, processedLog, failedLog, proxies, iterate);
      && ResolvedIds(t) == Elements(processedLog) + Elements(failedLog) + Range(1, TotalCases)
      && Elements(processedLog) <= t.processed && Elements(failedLog) <= t.failed
      && LogsAgree(t)
      && (Elements(processedLog) !! Elements(failedLog) ==> Inv(t))
  {
    CrawlResolvesRange(env, Load(processedLog, failedLog, proxies), TotalCases, BatchSize, iterate);
  }
}

=== FILE: decimal.dfy ===
/** Decimal rendering of integers, as Python's `f"{n}"` writes them, and its inverse. */
module Decimal {
  import opened Wrappers

  predicate IsDigit(c: char) {
    '0' <= c <= '9'
  }

  predicate AllDigits(s: string) {
    forall i :: 0 <= i < |s| ==> IsDigit(s[i])
  }

  /** A numeral as Python prints a natural number: digits only, no leading zero except in "0". */
  predicate Canonical(s: string) {
    |s| > 0 && AllDigits(s) && (|s| == 1 || s[0] != '0')
  }

  function DigitChar(d: nat): (c: char)
    requires d < 10
    ensures IsDigit(c)
  {
    ('0' as int + d) as char
  }

  function DigitValue(c: char): (d: nat)
    requires IsDigit(c)
    ensures d < 10 && DigitChar(d) == c
  {
    c as int - '0' as int
  }

  /** The decimal numeral of `n`, most significant digit first. */
  function NatToDecimal(n: nat): (s: string)
    ensures Canonical(s)
    ensures n > 0 ==> s[0] != '0'
  {
    if n < 10 then [DigitChar(n)] else NatToDecimal(n / 10) + [DigitChar(n % 10)]
  }

  /** The value of a string of digits (the empty string reads as 0). */
  function DecimalToNat(s: string): nat
    requires AllDigits(s)
  {
    if |s| == 0 then 0 else DecimalToNat(s[..|s| - 1]) * 10 + DigitValue(s[|s| - 1])
  }

  /** Reading back a printed natural number gives the number. */
  lemma {:induction false} DecimalRoundTrip(n: nat)
    ensures DecimalToNat(NatToDecimal(n)) == n
  {
    if n >= 10 {
      var s := NatToDecimal(n);
      assert s[..|s| - 1] == NatToDecimal(n / 10);
      DecimalRoundTrip(n / 10);
    }
  }

  lemma {:induction false} DecimalPositive(s: string)
    requires |s| > 0 && AllDigits(s) && s[0] != '0'
    ensures DecimalToNat(s) > 0
  {
    if |s| > 1 {
      DecimalPositive(s[..|s| - 1]);
    }
  }

  /** Printing the value of a canonical numeral gives the numeral back. */
  lemma {:induction false} CanonicalRoundTrip(s: string)
    requires Canonical(s)
    ensures NatToDecimal(DecimalToNat(s)) == s
  {
    if |s| > 1 {
      var p := s[..|s| - 1];
      DecimalPositive(p);
      CanonicalRoundTrip(p);
      assert s == p + [s[|s| - 1]];
    }
  }

  /** Python's `str(i)` for an int: a minus sign for negatives, then the numeral. */
  function IntToString(i: int): (s: string)
    ensures |s| > 0 && '\n' !in s
  {
    if i < 0 then "-" + NatToDecimal(-i) else NatToDecimal(i)
  }

  /** Reads an optionally negative string of digits; None for anything else. */
  function ParseInt(s: string): Option<int> {
    if |s| > 1 && s[0] == '-' && AllDigits(s[1..]) then Some(0 - DecimalToNat(s[1..]) as int)
    else if |s| > 0 && AllDigits(s) then Some(DecimalToNat(s))
    else None
  }

  /** Every printed integer reads back as itself, so distinct ids print differently. */
  lemma IntRoundTrip(i: int)
    ensures ParseInt(IntToString(i)) == Some(i)
  {
    var s := IntToString(i);
    if i < 0 {
      assert s[1..] == NatToDecimal(-i);
      DecimalRoundTrip(-i);
    } else {
      DecimalRoundTrip(i);
    }
  }

  lemma IntToStringInjective(a: int, b: int)
    requires IntToString(a) == IntToString(b)
    ensures a == b
  {
    IntRoundTrip(a);
    IntRoundTrip(b);
  }
}

=== FILE: proxy.dfy ===
/** Round-robin selection over the configured proxy list. */
module Proxy {
  import opened Wrappers

  /** The `proxies` mapping handed to the HTTP client: one endpoint per transport leg. */
  datatype ProxyConfig = ProxyConfig(http: string, https: string)

  predicate EndsWith(s: string, suffix: string) {
    |suffix| <= |s| && s[|s| - |suffix|..] == suffix
  }

  /** The mapping for one list entry. `hasScheme` stands for "urlparse finds a scheme in it";
      an entry with a scheme serves both legs as it is, a bare entry gets a scheme per leg. */
  function Normalize(entry: string, hasScheme: string -> bool): ProxyConfig {
    if hasScheme(entry) then ProxyConfig(entry, entry)
    else ProxyConfig("http://" + entry, "https://" + entry)
  }

  /** Both legs go to the entry itself; they coincide exactly when the entry names its own
      scheme, an entry with a scheme is used unchanged on both legs, and a bare entry is
      reached over http on one leg and https on the other. */
  lemma NormalizeLegs(entry: string, hasScheme: string -> bool)
    ensures var c := Normalize(entry, hasScheme);
      && EndsWith(c.http, entry) && EndsWith(c.https, entry)
      && (c.http == c.https <==> hasScheme(entry))
      && (hasScheme(entry) ==> c.http == entry && c.https == entry)
      && (!hasScheme(entry) ==> c.http == "http://" + entry && c.https == "https://" + entry)
  {
    var c := Normalize(entry, hasScheme);
    if !hasScheme(entry) {
      assert |c.http| != |c.https|;
    }
  }

  /** The cursor indexes the list, or the list is empty (the cursor then stays at its start). */
  predicate CursorOk(proxies: seq<string>, index: nat) {
    |proxies| == 0 || index < |proxies|
  }

  /** One call of `get_next_proxy`: the mapping for the entry under the cursor, and the new cursor. */
  function NextProxy(proxies: seq<string>, index: nat, hasScheme: string -> bool): (r: (Option<ProxyConfig>, nat))
    requires CursorOk(proxies, index)
    ensures r.0 == None <==> |proxies| == 0
    ensures |proxies| == 0 ==> r.1 == index
    ensures |proxies| > 0 ==> r.0 == Some(Normalize(proxies[index], hasScheme)) && r.1 == (index + 1) % |proxies|
    ensures CursorOk(proxies, r.1)
  {
    if |proxies| == 0 then (None, index)
    else (Some(Normalize(proxies[index], hasScheme)), (index + 1) % |proxies|)
  }

  /** `n` successive calls: the mappings they return, in order, and the cursor after them. */
  function Rotate(proxies: seq<string>, index: nat, n: nat, hasScheme: string -> bool): (r: (seq<Option<ProxyConfig>>, nat))
    requires CursorOk(proxies, index)
    ensures |r.0| == n && CursorOk(proxies, r.1)
    decreases n
  {
    if n == 0 then ([], index)
    else
      var (p, i) := NextProxy(proxies, index, hasScheme);
      var (rest, j) := Rotate(proxies, i, n - 1, hasScheme);
      ([p] + rest, j)
  }

  lemma ModOfDecomposition(x: int, q: int, r: int, k: int)
    requires k > 0 && 0 <= r < k && x == q * k + r
    ensures x % k == r
  {
    var q' := x / k;
    var r' := x % k;
    assert x == q' * k + r';
    if q != q' {
      MulDistinct(q, q', k);
      assert false;
    }
  }

  lemma MulDistinct(a: int, b: int, k: int)
    requires k > 0 && a != b
    ensures a * k - b * k >= k || b * k - a * k >= k
  {
    if a > b {
      MulAtLeast(a - b, k);
      assert a * k - b * k == (a - b) * k;
    } else {
      MulAtLeast(b - a, k);
      assert b * k - a * k == (b - a) * k;
    }
  }

  lemma MulAtLeast(d: int, k: int)
    requires d >= 1 && k > 0
    ensures d * k >= k
  {
  }

  lemma ModStep(i: int, j: nat, k: int)
    requires 0 <= i < k
    ensures ((i + 1) % k + j) % k == (i + 1 + j) % k
  {
    if i + 1 == k {
      ModOfDecomposition(k, 1, 0, k);
      ModOfDecomposition(i + 1 + j, j / k + 1, j % k, k);
      ModOfDecomposition(j, j / k, j % k, k);
    } else {
      ModOfDecomposition(i + 1, 0, i + 1, k);
    }
  }

  /** The cursor after `k` steps round a list of `K` entries, counted without `%`. */
  function Advance(i: nat, k: nat, K: nat): (j: nat)
    requires i < K
    ensures j < K
    decreases k
  {
    if k == 0 then i else Advance(if i + 1 < K then i + 1 else 0, k - 1, K)
  }

  lemma StepIsMod(i: nat, K: nat)
    requires i < K
    ensures (i + 1) % K == (if i + 1 < K then i + 1 else 0)
  {
    if i + 1 < K {
      ModOfDecomposition(i + 1, 0, i + 1, K);
    } else {
      ModOfDecomposition(i + 1, 1, 0, K);
    }
  }

  lemma {:induction false} AdvanceIsMod(i: nat, k: nat, K: nat)
    requires i < K
    ensures Advance(i, k, K) == (i + k) % K
    decreases k
  {
    if k == 0 {
      ModOfDecomposition(i, 0, i, K);
    } else {
      var i' := if i + 1 < K then i + 1 else 0;
      AdvanceIsMod(i', k - 1, K);
      StepIsMod(i, K);
      ModStep(i, k - 1, K);
    }
  }

  lemma {:induction false} RotateAdvance(proxies: seq<string>, index: nat, n: nat, k: nat, hasScheme: string -> bool)
    requires |proxies| > 0 && index < |proxies| && k < n
    ensures Rotate(proxies, index, n, hasScheme).0[k] == Some(Normalize(proxies[Advance(index, k, |proxies|)], hasScheme))
    decreases k
  {
    var K := |proxies|;
    var i := if index + 1 < K then index + 1 else 0;
    StepIsMod(index, K);
    var rest := Rotate(proxies, i, n - 1, hasScheme).0;
    assert Rotate(proxies, index, n, hasScheme).0 == [Some(Normalize(proxies[index], hasScheme))] + rest;
    if k > 0 {
      RotateAdvance(proxies, i, n - 1, k - 1, hasScheme);
    }
  }

  lemma RotateAt(proxies: seq<string>, index: nat, n: nat, k: nat, hasScheme: string -> bool)
    requires |proxies| > 0 && index < |proxies| && k < n
    ensures Rotate(proxies, index, n, hasScheme).0[k] == Some(Normalize(proxies[(index + k) % |proxies|], hasScheme))
  {
    RotateAdvance(proxies, index, n, k, hasScheme);
    AdvanceIsMod(index, k, |proxies|);
  }

  lemma {:induction false} RotateCursorAdvance(proxies: seq<string>, index: nat, n: nat, hasScheme: string -> bool)
    requires |proxies| > 0 && index < |proxies|
    ensures Rotate(proxies, index, n, hasScheme).1 == Advance(index, n, |proxies|)
    decreases n
  {
    if n > 0 {
      var K := |proxies|;
      StepIsMod(index, K);
      RotateCursorAdvance(proxies, if index + 1 < K then index + 1 else 0, n - 1, hasScheme);
    }
  }

  lemma RotateCursor(proxies: seq<string>, index: nat, n: nat, hasScheme: string -> bool)
    requires |proxies| > 0 && index < |proxies|
    ensures Rotate(proxies, index, n, hasScheme).1 == (index + n) % |proxies|
  {
    RotateCursorAdvance(proxies, index, n, hasScheme);
    AdvanceIsMod(index, n, |proxies|);
  }

  /** Over `n` calls the list is served cyclically from the cursor: call `k` gets entry
      `(index + k) % K`, and the cursor ends `n` places further round. */
  lemma RotateCyclic(proxies: seq<string>, index: nat, n: nat, hasScheme: string -> bool)
    requires |proxies| > 0 && index < |proxies|
    ensures forall k :: 0 <= k < n ==>
      Rotate(proxies, index, n, hasScheme).0[k] == Some(Normalize(proxies[(index + k) % |proxies|], hasScheme))
    ensures Rotate(proxies, index, n, hasScheme).1 == (index + n) % |proxies|
  {
    forall k | 0 <= k < n
      ensures Rotate(proxies, index, n, hasScheme).0[k] == Some(Normalize(proxies[(index + k) % |proxies|], hasScheme))
    {
      RotateAt(proxies, index, n, k, hasScheme);
    }
    RotateCursor(proxies, index, n, hasScheme);
  }

  /** With no proxies every call returns None and the cursor never moves. */
  lemma {:induction false} RotateWithoutProxies(proxies: seq<string>, index: nat, n: nat, hasScheme: string -> bool)
    requires |proxies| == 0
    ensures forall k :: 0 <= k < n ==> Rotate(proxies, index, n, hasScheme).0[k] == None
    ensures Rotate(proxies, index, n, hasScheme).1 == index
  {
    if n > 0 {
      RotateWithoutProxies(proxies, index, n - 1, hasScheme);
    }
  }

  /** `K` calls on a list of `K` entries serve every entry exactly once, in list order rotated to
      start at the cursor, and bring the cursor back to where it started. */
  lemma FullCycle(proxies: seq<string>, index: nat, hasScheme: string -> bool)
    requires |proxies| > 0 && index < |proxies|
    ensures var order := proxies[index..] + proxies[..index];
      forall k :: 0 <= k < |proxies| ==> Rotate(proxies, index, |proxies|, hasScheme).0[k] == Some(Normalize(order[k], hasScheme))
    ensures Rotate(proxies, index, |proxies|, hasScheme).1 == index
  {
    var K := |proxies|;
    var order := proxies[index..] + proxies[..index];
    forall k | 0 <= k < K
      ensures Rotate(proxies, index, K, hasScheme).0[k] == Some(Normalize(order[k], hasScheme))
    {
      RotateAt(proxies, index, K, k, hasScheme);
      RotatedEntry(proxies, index, k);
    }
    RotateCursor(proxies, index, K, hasScheme);
    ModOfDecomposition(index + K, 1, index, K);
  }

  lemma RotatedEntry(proxies: seq<string>, index: nat, k: nat)
    requires index < |proxies| && k < |proxies|
    ensures (proxies[index..] + proxies[..index])[k] == proxies[(index + k) % |proxies|]
  {
    var K := |proxies|;
    if index + k < K {
      ModOfDecomposition(index + k, 0, index + k, K);
    } else {
      ModOfDecomposition(index + k, 1, index + k - K, K);
    }
  }
}

=== FILE: record.dfy ===
/** The block a found case is written as in the output corpus file, and a reader for it. */
module Record {
  import opened Wrappers
  import opened Decimal

  /** A fetched case: its id, its title and its judgment text. */
  datatype CaseRecord = CaseRecord(id: int, title: string, text: string)

  const RuleWidth: nat := 100

  /** The delimiter line of a record block: `'=' * 100`. */
  const Rule: string := "===================================================================================================="

  function Lead(rule: string): string {
    "\n\n" + rule + "\nCase ID: "
  }

  const TitleTag: string := "Title: "

  function Mid(rule: string): string {
    "\n" + rule + "\n\n"
  }

  /** The text written for one record, with `rule` as the delimiter line: a blank line, the
      rule, the "Case ID: " line, the "Title: " line, the rule, a blank line, the judgment
      text and a blank line. The pieces are grouped here at the points where the reader
      below splits them. */
  function Block(rule: string, r: CaseRecord): string {
    Lead(rule) + (IntToString(r.id) + ("\n" + (TitleTag + (r.title + (Mid(rule) + (r.text + "\n\n"))))))
  }

  /** The block the scraper appends to the output file for a found case. */
  function Format(r: CaseRecord): (s: string)
    ensures |s| == 2 * RuleWidth + 25 + |IntToString(r.id)| + |r.title| + |r.text|
  {
    Block(Rule, r)
  }

  /** The text of the output file after the given records have been appended in order. */
  function CorpusText(records: seq<CaseRecord>): string {
    if |records| == 0 then "" else CorpusText(records[..|records| - 1]) + Format(records[|records| - 1])
  }

  predicate StartsWith(s: string, prefix: string) {
    |prefix| <= |s| && s[..|prefix|] == prefix
  }

  /** The index of the first newline of `s`, or `|s|` when it has none. */
  function LineEnd(s: string): (k: nat)
    ensures k <= |s|
    ensures k < |s| ==> s[k] == '\n'
    ensures forall i :: 0 <= i < k ==> s[i] != '\n'
  {
    if |s| == 0 || s[0] == '\n' then 0 else 1 + LineEnd(s[1..])
  }

  lemma LineEndAt(x: string, y: string)
    requires '\n' !in x
    requires |y| > 0 && y[0] == '\n'
    ensures LineEnd(x + y) == |x|
  {
    assert (x + y)[|x|] == '\n';
    assert forall i :: 0 <= i < |x| ==> (x + y)[i] == x[i] && x[i] in x;
  }

  /** Reads one record block back: the id line, the title line, the text up to the final blank line. */
  function ParseRecord(s: string): Option<CaseRecord> {
    ParseBlock(Rule, s)
  }

  function ParseBlock(rule: string, s: string): Option<CaseRecord> {
    if StartsWith(s, Lead(rule)) then ParseIdLine(rule, s[|Lead(rule)|..]) else None
  }

  function ParseIdLine(rule: string, a: string): Option<CaseRecord> {
    var i := LineEnd(a);
    if i == |a| then None
    else
      match ParseInt(a[..i])
      case None => None
      case Some(id) => ParseTitleLine(rule, id, a[i + 1..])
  }

  function ParseTitleLine(rule: string, id: int, b: string): Option<CaseRecord> {
    if !StartsWith(b, TitleTag) then None
    else
      var c := b[|TitleTag|..];
      var j := LineEnd(c);
      ParseBody(rule, id, c[..j], c[j..])
  }

  function ParseBody(rule: string, id: int, title: string, d: string): Option<CaseRecord> {
    if !StartsWith(d, Mid(rule)) then None
    else
      var e := d[|Mid(rule)|..];
      if |e| < 2 || e[|e| - 2..] != "\n\n" then None
      else Some(CaseRecord(id, title, e[..|e| - 2]))
  }

  lemma ParseBodyOf(rule: string, id: int, title: string, text: string)
    ensures ParseBody(rule, id, title, Mid(rule) + (text + "\n\n")) == Some(CaseRecord(id, title, text))
  {
    var d := Mid(rule) + (text + "\n\n");
    assert d[..|Mid(rule)|] == Mid(rule);
    assert d[|Mid(rule)|..] == text + "\n\n";
  }

  lemma ParseTitleLineOf(rule: string, id: int, title: string, text: string)
    requires '\n' !in title
    ensures ParseTitleLine(rule, id, TitleTag + (title + (Mid(rule) + (text + "\n\n"))))
      == Some(CaseRecord(id, title, text))
  {
    var d := Mid(rule) + (text + "\n\n");
    var c := title + d;
    var b := TitleTag + c;
    assert b[..|TitleTag|] == TitleTag;
    assert b[|TitleTag|..] == c;
    LineEndAt(title, d);
    assert c[..|title|] == title;
    assert c[|title|..] == d;
    ParseBodyOf(rule, id, title, text);
  }

  lemma ParseIdLineOf(rule: string, id: int, rest: string)
    ensures ParseIdLine(rule, IntToString(id) + ("\n" + rest)) == ParseTitleLine(rule, id, rest)
  {
    var ids := IntToString(id);
    var a := ids + ("\n" + rest);
    LineEndAt(ids, "\n" + rest);
    assert a[..|ids|] == ids;
    IntRoundTrip(id);
    assert a[|ids| + 1..] == rest;
  }

  lemma BlockRoundTrip(rule: string, r: CaseRecord)
    requires '\n' !in r.title
    ensures ParseBlock(rule, Block(rule, r)) == Some(r)
  {
    var rest := TitleTag + (r.title + (Mid(rule) + (r.text + "\n\n")));
    var a := IntToString(r.id) + ("\n" + rest);
    var s := Block(rule, r);
    assert s[..|Lead(rule)|] == Lead(rule);
    assert s[|Lead(rule)|..] == a;
    ParseIdLineOf(rule, r.id, rest);
    ParseTitleLineOf(rule, r.id, r.title, r.text);
  }

  /** A record whose title is one line is read back exactly from the block it is written as. */
  lemma FormatRoundTrip(r: CaseRecord)
    requires '\n' !in r.title
    ensures ParseRecord(Format(r)) == Some(r)
  {
    BlockRoundTrip(Rule, r);
  }

  /** Appending a record appends exactly its block to the file text. */
  lemma CorpusAppend(records: seq<CaseRecord>, r: CaseRecord)
    ensures CorpusText(records + [r]) == CorpusText(records) + Format(r)
  {
    assert (records + [r])[..|records|] == records;
  }

  /** The corpus file is append-only: appending records never changes the text already there. */
  lemma {:induction false} CorpusGrows(a: seq<CaseRecord>, b: seq<CaseRecord>)
    ensures |CorpusText(a)| <= |CorpusText(a + b)|
    ensures CorpusText(a + b)[..|CorpusText(a)|] == CorpusText(a)
    decreases |b|
  {
    if |b| == 0 {
      assert a + b == a;
    } else {
      var init := b[..|b| - 1];
      CorpusGrows(a, init);
      SplitLast(a, b);
      CorpusAppend(a + init, b[|b| - 1]);
      PrefixOfPrefix(CorpusText(a), CorpusText(a + init), Format(b[|b| - 1]));
    }
  }

  lemma SplitLast(a: seq<CaseRecord>, b: seq<CaseRecord>)
    requires |b| > 0
    ensures a + b == (a + b[..|b| - 1]) + [b[|b| - 1]]
  {
  }

  lemma PrefixOfPrefix(p: string, x: string, y: string)
    requires |p| <= |x| && x[..|p|] == p
    ensures |p| <= |x + y| && (x + y)[..|p|] == p
  {
    assert (x + y)[..|p|] == x[..|p|];
  }
}

=== FILE: retry.dfy ===
/** `retry_failed_cases`: passes over a working copy of the failed ids, then a rewrite of
    the failed file from what is left. */
module Retry {
  import opened Wrappers
  import opened Scraper

  /** `r` is `xs` with its first occurrence of `x`, at position `i`, dropped. */
  predicate RemovedAt(xs: seq<int>, x: int, i: int, r: seq<int>) {
    0 <= i < |xs| && xs[i] == x && x !in xs[..i] && r == xs[..i] + xs[i + 1..]
  }

  /** The position of the first occurrence of `x` (Python's `list.index`). */
  function IndexOf(xs: seq<int>, x: int): (i: nat)
    requires x in xs
    ensures i < |xs| && xs[i] == x && x !in xs[..i]
  {
    if xs[0] == x then 0
    else
      var i := IndexOf(xs[1..], x);
      assert xs[..i + 1] == [xs[0]] + xs[1..][..i];
      i + 1
  }

  /** Python's `list.remove(x)`: drops the first occurrence and keeps the rest in order (the
      source never removes an absent id). */
  function Remove(xs: seq<int>, x: int): (r: seq<int>)
    ensures x in xs ==> exists i :: RemovedAt(xs, x, i, r)
    ensures x !in xs ==> r == xs
    ensures Elements(r) <= Elements(xs)
    ensures Distinct(xs) ==> Distinct(r) && Elements(r) == Elements(xs) - {x}
  {
    if x in xs then
      var i := IndexOf(xs, x);
      DropAt(xs, i);
      assert RemovedAt(xs, x, i, xs[..i] + xs[i + 1..]);
      xs[..i] + xs[i + 1..]
    else xs
  }

  /** Dropping position `i` keeps only elements of the list, and from a duplicate-free list it
      drops exactly the element at `i`. */
  lemma DropAt(xs: seq<int>, i: nat)
    requires i < |xs|
    ensures Elements(xs[..i] + xs[i + 1..]) <= Elements(xs)
    ensures Distinct(xs) ==> Distinct(xs[..i] + xs[i + 1..]) && Elements(xs[..i] + xs[i + 1..]) == Elements(xs) - {xs[i]}
  {
    var r := xs[..i] + xs[i + 1..];
    assert forall j :: 0 <= j < |r| ==> r[j] == (if j < i then xs[j] else xs[j + 1]);
    if Distinct(xs) {
      forall y | y in Elements(xs) - {xs[i]}
        ensures y in Elements(r)
      {
        var k :| 0 <= k < |xs| && xs[k] == y;
        assert r[if k < i then k else k - 1] == y;
      }
    }
  }

  /** One retry pass: every id of the snapshot `todo` is fetched in turn; a found record is
      appended and its id dropped from the working copy. */
  function RetryPass(env: Env, s: State, todo: seq<int>, working: seq<int>): (r: (seq<int>, State))
    requires CursorOk(s)
    ensures CursorOk(r.1) && Elements(r.0) <= Elements(working)
    ensures Distinct(working) ==> Distinct(r.0)
    ensures LogsAgree(s) ==> LogsAgree(r.1)
    decreases |todo|
  {
    if |todo| == 0 then (working, s)
    else
      var (found, s1) := FetchCase(env, s, todo[0]);
      var w := if found.Some? then Remove(working, todo[0]) else working;
      RetryPass(env, Save(s1, found), todo[1..], w)
  }

  /** Up to `passes` passes, stopping early once the working copy is empty. */
  function RetryPasses(env: Env, s: State, working: seq<int>, passes: int): (r: (seq<int>, State))
    requires CursorOk(s)
    ensures CursorOk(r.1) && Elements(r.0) <= Elements(working)
    ensures Distinct(working) ==> Distinct(r.0)
    ensures LogsAgree(s) ==> LogsAgree(r.1)
    decreases passes
  {
    if passes <= 0 then (working, s)
    else
      var (w, s1) := RetryPass(env, s, working, working);
      if |w| == 0 then (w, s1) else RetryPasses(env, s1, w, passes - 1)
  }

  /** Python's iteration order over a set, which the language leaves unspecified: any
      enumeration of each set. */
  ghost predicate IsIterationOrder(iterate: set<int> -> seq<int>) {
    forall u :: Enumerates(iterate(u), u)
  }

  /** `retry_failed_cases(max_retries)`. `order` is the order in which `list(failed_ids)`
      lists the set; the rewritten file lists the rebuilt set `set(failed_ids)` in the order
      `iterate` gives it. */
  function RetryFailed(env: Env, s: State, order: seq<int>, iterate: set<int> -> seq<int>, maxRetries: int): (t: State)
    requires CursorOk(s) && Enumerates(order, s.failed) && IsIterationOrder(iterate)
    ensures CursorOk(t) && t.failed <= s.failed
    ensures LogsAgree(s) ==> LogsAgree(t)
    ensures |s.failed| > 0 ==> Enumerates(t.failedLog, t.failed) && t.failedLog == iterate(t.failed)
  {
    if |s.failed| == 0 then s
    else
      var (w, t) := RetryPasses(env, s, order, maxRetries);
      var rebuilt := Elements(w);
      assert Enumerates(iterate(rebuilt), rebuilt);
      t.(failed := rebuilt, failedLog := iterate(rebuilt))
  }

  /** A pass over ids that are all failed fetches nothing and changes nothing: `fetch_case`
      skips each of them. */
  lemma {:induction false} RetryPassInert(env: Env, s: State, todo: seq<int>, working: seq<int>)
    requires CursorOk(s) && Elements(todo) <= s.failed
    ensures RetryPass(env, s, todo, working) == (working, s)
    decreases |todo|
  {
    if |todo| > 0 {
      assert todo[0] in Elements(todo);
      assert Elements(todo[1..]) <= Elements(todo);
      assert Save(s, None) == s by { assert s.output + [] == s.output; }
      RetryPassInert(env, s, todo[1..], working);
    }
  }

  lemma {:induction false} RetryPassesInert(env: Env, s: State, working: seq<int>, passes: int)
    requires CursorOk(s) && Elements(working) <= s.failed
    ensures RetryPasses(env, s, working, passes) == (working, s)
    decreases passes
  {
    if passes > 0 {
      RetryPassInert(env, s, working, working);
      if |working| > 0 {
        RetryPassesInert(env, s, working, passes - 1);
      }
    }
  }

  /** What `retry_failed_cases` actually does: with no failed ids, nothing; otherwise it issues
      no request, appends no record, leaves both sets as they were and only rewrites the failed
      file as one line per failed id, in the set's iteration order. */
  lemma RetryFailedIsInert(env: Env, s: State, order: seq<int>, iterate: set<int> -> seq<int>, maxRetries: int)
    requires CursorOk(s) && Enumerates(order, s.failed) && IsIterationOrder(iterate)
    ensures RetryFailed(env, s, order, iterate, maxRetries)
      == (if |s.failed| == 0 then s else s.(failedLog := iterate(s.failed)))
    ensures |s.failed| > 0 ==> Enumerates(RetryFailed(env, s, order, iterate, maxRetries).failedLog, s.failed)
  {
    if |s.failed| > 0 {
      RetryPassesInert(env, s, order, maxRetries);
      assert Enumerates(iterate(s.failed), s.failed);
    }
  }

  /** Hence no failed id ever becomes processed through the retry, and the invariants survive it. */
  lemma RetryFailedKeepsOutcomes(env: Env, s: State, order: seq<int>, iterate: set<int> -> seq<int>, maxRetries: int)
    requires Inv(s) && Enumerates(order, s.failed) && IsIterationOrder(iterate)
    ensures var t := RetryFailed(env, s, order, iterate, maxRetries);
      Inv(t) && t.processed == s.processed && t.failed == s.failed
      && t.requests == s.requests && t.output == s.output && t.proxyIndex == s.proxyIndex
  {
    RetryFailedIsInert(env, s, order, iterate, maxRetries);
  }
}

=== FILE: scraper.dfy ===
/** The scraper's bookkeeping: which case ids are known, the two id logs, the proxy cursor,
    and the per-case fetch that classifies an id exactly once. */
module Scraper {
  import opened Wrappers
  import opened Decimal
  import opened Record
  import Proxy

  /** What HTML extraction finds on a fetched page: the text of the judgments section and the
      text of the first h1, each when present. */
  datatype Page = Page(judgment: Option<string>, title: Option<string>)

  /** What one HTTP GET yields: an exception from the transport, or a response. */
  datatype Outcome = TransportError | Response(status: int, page: Page)

  /** One GET issued: of the page of case `caseId`, at `CaseUrl(caseId)`, through the proxy
      mapping `proxy`. `CaseUrlInjective` shows the case id determines the URL and back. */
  datatype Request = Request(caseId: int, proxy: Option<Proxy.ProxyConfig>)

  /** The world outside the bookkeeping. The `k`-th GET ever issued gets `net(k)`;
      `isErrorStatus` is the status test of `raise_for_status`; `hasScheme` is whether
      `urlparse` finds a scheme in a proxy entry. */
  datatype Env = Env(net: nat -> Outcome, isErrorStatus: int -> bool, hasScheme: string -> bool)

  /** The scraper object. `processedLog` and `failedLog` are the lines of `processed_ids.txt`
      and `failed_ids.txt`; `requests` is every GET issued, in order; `output` is the records
      appended to the corpus file, whose text is `CorpusText(output)`. */
  datatype State = State(
    processed: set<int>,
    failed: set<int>,
    processedLog: seq<int>,
    failedLog: seq<int>,
    proxies: seq<string>,
    proxyIndex: nat,
    requests: seq<Request>,
    output: seq<CaseRecord>)

  const TooManyRequests := 429

  function CaseUrl(id: int): string {
    "https://indiankanoon.org/doc/" + IntToString(id) + "/"
  }

  /** Distinct ids have distinct page URLs. */
  lemma CaseUrlInjective(a: int, b: int)
    requires CaseUrl(a) == CaseUrl(b)
    ensures a == b
  {
    var prefix := "https://indiankanoon.org/doc/";
    var u := CaseUrl(a);
    assert u == prefix + (IntToString(a) + "/");
    assert u == prefix + (IntToString(b) + "/");
    assert IntToString(a) == u[|prefix|..|u| - 1];
    assert IntToString(b) == u[|prefix|..|u| - 1];
    IntToStringInjective(a, b);
  }

  function DefaultTitle(id: int): string {
    "Case " + IntToString(id)
  }

  predicate CursorOk(s: State) {
    Proxy.CursorOk(s.proxies, s.proxyIndex)
  }

  /** Each set holds exactly the ids written to its file. */
  predicate LogsAgree(s: State) {
    s.processed == Elements(s.processedLog) && s.failed == Elements(s.failedLog)
  }

  predicate Inv(s: State) {
    s.processed !! s.failed && LogsAgree(s) && CursorOk(s)
  }

  /** The scraper as constructed: the sets read from the two id files, cursor at 0. */
  function Load(processedLog: seq<int>, failedLog: seq<int>, proxies: seq<string>): (s: State)
    ensures LogsAgree(s) && CursorOk(s)
    ensures Elements(processedLog) !! Elements(failedLog) ==> Inv(s)
    // The given proxy list, the cursor at its start, and nothing requested or written yet.
    ensures s.proxies == proxies && s.proxyIndex == 0 && s.requests == [] && s.output == []
    // The logs are the two files as read, so the sets hold exactly their ids.
    ensures s.processedLog == processedLog && s.failedLog == failedLog
    ensures s.processed == Elements(processedLog) && s.failed == Elements(failedLog)
  {
    State(Elements(processedLog), Elements(failedLog), processedLog, failedLog, proxies, 0, [], [])
  }

  /** The id already has a known outcome, so `fetch_case` skips it. */
  predicate Resolved(s: State, id: int) {
    id in s.processed || id in s.failed
  }

  function ResolvedIds(s: State): set<int> {
    s.processed + s.failed
  }

  /** `t` is `s` with `id` added to the processed set and its file, and nothing else changed. */
  predicate MarkedProcessed(s: State, t: State, id: int) {
    t == s.(processed := s.processed + {id}, processedLog := s.processedLog + [id])
  }

  /** `t` is `s` with `id` added to the failed set and its file, and nothing else changed. */
  predicate MarkedFailed(s: State, t: State, id: int) {
    t == s.(failed := s.failed + {id}, failedLog := s.failedLog + [id])
  }

  predicate IsRateLimited(o: Outcome) {
    o.Response? && o.status == TooManyRequests
  }

  /** The outcome makes `fetch_case` take its `RequestException` branch. */
  predicate IsFailure(env: Env, o: Outcome) {
    o.TransportError? || env.isErrorStatus(o.status)
  }

  /** The outcome of the last GET issued so far. */
  function LastOutcome(env: Env, s: State): Outcome
    requires |s.requests| > 0
  {
    env.net(|s.requests| - 1)
  }

  /** One `session.get`. */
  function Get(env: Env, s: State, id: int, proxy: Option<Proxy.ProxyConfig>): (Outcome, State) {
    (env.net(|s.requests|), s.(requests := s.requests + [Request(id, proxy)]))
  }

  /** The GET of `fetch_case`, repeated once through the same proxy when it is rate limited. */
  function Attempt(env: Env, s: State, id: int, proxy: Option<Proxy.ProxyConfig>): (r: (Outcome, State))
    ensures r.1 == s.(requests := r.1.requests)
    ensures s.requests <= r.1.requests
    ensures |r.1.requests| == |s.requests| + (if IsRateLimited(env.net(|s.requests|)) then 2 else 1)
    ensures forall k :: |s.requests| <= k < |r.1.requests| ==> r.1.requests[k] == Request(id, proxy)
    ensures r.0 == LastOutcome(env, r.1)
  {
    var (first, s1) := Get(env, s, id, proxy);
    if IsRateLimited(first) then Get(env, s1, id, proxy) else (first, s1)
  }

  /** The record `fetch_case` builds from a page whose judgments section was found. */
  function Found(id: int, page: Page): CaseRecord
    requires page.judgment.Some?
  {
    CaseRecord(id, page.title.GetOr(DefaultTitle(id)), page.judgment.value)
  }

  /** The record `fetch_case` returns for an unknown id whose last GET got `o`: one exactly
      when the response passed and its page has a judgments section. */
  function Fetched(env: Env, o: Outcome, id: int): Option<CaseRecord> {
    if !IsFailure(env, o) && o.page.judgment.Some? then Some(Found(id, o.page)) else None
  }

  /** What appending an optional record adds to the corpus: that record, or nothing. */
  function Written(found: Option<CaseRecord>): seq<CaseRecord> {
    if found.Some? then [found.value] else []
  }

  /** `fetch_case(id)`: the record found, if any, and the scraper after the call. */
  function FetchCase(env: Env, s: State, id: int): (r: (Option<CaseRecord>, State))
    requires CursorOk(s)
    // A known id is skipped before any side effect.
    ensures Resolved(s, id) ==> r == (None, s)
    // Otherwise the id gets exactly one outcome, in the set and file that match.
    ensures !Resolved(s, id) ==> (MarkedProcessed(s.(proxyIndex := r.1.proxyIndex, requests := r.1.requests), r.1, id)
                                  <==> !MarkedFailed(s.(proxyIndex := r.1.proxyIndex, requests := r.1.requests), r.1, id))
    ensures !Resolved(s, id) ==> Resolved(r.1, id)
    // The cursor moves exactly once; one GET, or two when the first is rate limited, both through that proxy.
    ensures !Resolved(s, id) ==> r.1.proxyIndex == Proxy.NextProxy(s.proxies, s.proxyIndex, env.hasScheme).1
    ensures !Resolved(s, id) ==>
      (s.requests <= r.1.requests
       && |r.1.requests| == |s.requests| + (if IsRateLimited(env.net(|s.requests|)) then 2 else 1))
    ensures !Resolved(s, id) ==> forall k :: |s.requests| <= k < |r.1.requests| ==>
      r.1.requests[k] == Request(id, Proxy.NextProxy(s.proxies, s.proxyIndex, env.hasScheme).0)
    // The classification follows the last response.
    ensures !Resolved(s, id) ==> (id in r.1.failed <==> IsFailure(env, LastOutcome(env, r.1)))
    ensures r.0.Some? <==> !Resolved(s, id) && !IsFailure(env, LastOutcome(env, r.1))
                           && LastOutcome(env, r.1).page.judgment.Some?
    ensures r.0.Some? ==> r.0.value == Found(id, LastOutcome(env, r.1).page) && r.0.value.id == id
    ensures !Resolved(s, id) ==> r.0 == Fetched(env, LastOutcome(env, r.1), id)
    ensures r.1.output == s.output && r.1.proxies == s.proxies
    ensures CursorOk(r.1)
    ensures LogsAgree(s) ==> LogsAgree(r.1)
    ensures Inv(s) ==> Inv(r.1)
  {
    if id in s.processed then (None, s)
    else if id in s.failed then (None, s)
    else
      var (proxy, cursor) := Proxy.NextProxy(s.proxies, s.proxyIndex, env.hasScheme);
      var (response, s2) := Attempt(env, s.(proxyIndex := cursor), id, proxy);
      if IsFailure(env, response) then
        ElementsAppend(s2.failedLog, id);
        (None, s2.(failed := s2.failed + {id}, failedLog := s2.failedLog + [id]))
      else
        ElementsAppend(s2.processedLog, id);
        var s3 := s2.(processed := s2.processed + {id}, processedLog := s2.processedLog + [id]);
        match response.page.judgment
        case None => (None, s3)
        case Some(_) => (Some(Found(id, response.page)), s3)
  }

  /** Appends a found record to the corpus file. */
  function Save(s: State, found: Option<CaseRecord>): State {
    s.(output := s.output + Written(found))
  }

  /** `process_single_case(id)`: fetch, and append the record if one was found. */
  function ProcessSingleCase(env: Env, s: State, id: int): (t: State)
    requires CursorOk(s)
    ensures CursorOk(t) && (Inv(s) ==> Inv(t)) && (LogsAgree(s) ==> LogsAgree(t))
    ensures ResolvedIds(t) == ResolvedIds(s) + {id}
    ensures s.processed <= t.processed && s.failed <= t.failed && t.proxies == s.proxies
    ensures s.output <= t.output && |t.output| <= |s.output| + 1
    ensures Resolved(s, id) ==> t == s
    // An unknown id is appended to exactly one of the two id files.
    ensures !Resolved(s, id) ==>
      (t.processedLog == s.processedLog + [id] && t.failedLog == s.failedLog)
      || (t.failedLog == s.failedLog + [id] && t.processedLog == s.processedLog)
    ensures s.processedLog <= t.processedLog && s.failedLog <= t.failedLog
    // The cursor moves once; one GET, or two when the first is rate limited, both through that proxy.
    ensures !Resolved(s, id) ==> t.proxyIndex == Proxy.NextProxy(s.proxies, s.proxyIndex, env.hasScheme).1
    ensures !Resolved(s, id) ==>
      |t.requests| == |s.requests| + (if IsRateLimited(env.net(|s.requests|)) then 2 else 1)
    ensures !Resolved(s, id) ==> forall k :: |s.requests| <= k < |t.requests| ==>
      t.requests[k] == Request(id, Proxy.NextProxy(s.proxies, s.proxyIndex, env.hasScheme).0)
    // Every GET of the call is for this case's page, and an unknown id gets at least one.
    ensures s.requests <= t.requests && (!Resolved(s, id) ==> |t.requests| > |s.requests|)
    ensures forall k :: |s.requests| <= k < |t.requests| ==> t.requests[k].caseId == id
    // A record is written exactly when the fetch found one, and it is the record found.
    ensures |t.output| == |s.output| + 1 <==>
      !Resolved(s, id) && !IsFailure(env, LastOutcome(env, t)) && LastOutcome(env, t).page.judgment.Some?
    ensures |t.output| == |s.output| + 1 ==>
      t.output[|s.output|] == Found(id, LastOutcome(env, t).page) && id in t.processed
    ensures !Resolved(s, id) ==> t.output == s.output + Written(Fetched(env, env.net(|t.requests| - 1), id))
    // The id is failed exactly when the last answer is a failure.
    ensures !Resolved(s, id) ==> (id in t.failed <==> IsFailure(env, env.net(|t.requests| - 1)))
  {
    var (found, s1) := FetchCase(env, s, id);
    Save(s1, found)
  }

  /** The ids `save_cases(start, end)` works through: those of [start, end] with no known outcome. */
  function Pending(s: State, start: int, end: int): (ids: seq<int>)
    ensures forall x :: x in ids <==> start <= x <= end && !Resolved(s, x)
    ensures Increasing(ids)
    decreases if start <= end then end - start + 1 else 0
  {
    if start > end then []
    else if Resolved(s, start) then Pending(s, start + 1, end)
    else
      var rest := Pending(s, start + 1, end);
      assert forall j :: 0 <= j < |rest| ==> rest[j] in rest;
      [start] + rest
  }

  /** The loop of `save_cases` over an id list. */
  function ProcessAll(env: Env, s: State, ids: seq<int>): (t: State)
    requires CursorOk(s)
    ensures CursorOk(t) && (Inv(s) ==> Inv(t)) && (LogsAgree(s) ==> LogsAgree(t))
    ensures ResolvedIds(t) == ResolvedIds(s) + Elements(ids)
    ensures s.processed <= t.processed && s.failed <= t.failed && t.proxies == s.proxies
    ensures s.output <= t.output
    // Both id files are only appended to.
    ensures s.processedLog <= t.processedLog && s.failedLog <= t.failedLog
    decreases |ids|
  {
    if |ids| == 0 then s
    else
      var t := ProcessAll(env, ProcessSingleCase(env, s, ids[0]), ids[1..]);
      assert Elements(ids) == {ids[0]} + Elements(ids[1..]);
      t
  }

  /** The GETs of the loop all go to the pages of its ids. */
  lemma {:induction false} ProcessAllRequests(env: Env, s: State, ids: seq<int>)
    requires CursorOk(s)
    ensures s.requests <= ProcessAll(env, s, ids).requests
    ensures forall x, k :: x !in ids && |s.requests| <= k < |ProcessAll(env, s, ids).requests| ==>
      ProcessAll(env, s, ids).requests[k].caseId != x
    decreases |ids|
  {
    if |ids| > 0 {
      var s1 := ProcessSingleCase(env, s, ids[0]);
      var t := ProcessAll(env, s1, ids[1..]);
      assert t == ProcessAll(env, s, ids);
      ProcessAllRequests(env, s1, ids[1..]);
      forall x, k | x !in ids && |s.requests| <= k < |t.requests|
        ensures t.requests[k].caseId != x
      {
        if k < |s1.requests| {
          assert t.requests[k] == s1.requests[k];
          assert ids[0] in ids;
        } else {
          assert x !in ids[1..];
        }
      }
    }
  }

  /** Every record the loop appends is for one of its ids, now processed; for an ascending id
      list the records come out in ascending id order. */
  lemma {:induction false} ProcessAllRecords(env: Env, s: State, ids: seq<int>)
    requires CursorOk(s)
    ensures forall k :: |s.output| <= k < |ProcessAll(env, s, ids).output| ==>
      ProcessAll(env, s, ids).output[k].id in ids && ProcessAll(env, s, ids).output[k].id in ProcessAll(env, s, ids).processed
    ensures Increasing(ids) ==> forall j, k :: |s.output| <= j < k < |ProcessAll(env, s, ids).output| ==>
      ProcessAll(env, s, ids).output[j].id < ProcessAll(env, s, ids).output[k].id
    decreases |ids|
  {
    if |ids| > 0 {
      var s1 := ProcessSingleCase(env, s, ids[0]);
      var t := ProcessAll(env, s1, ids[1..]);
      assert t == ProcessAll(env, s, ids);
      ProcessAllRecords(env, s1, ids[1..]);
      forall k | |s.output| <= k < |t.output|
        ensures t.output[k].id in ids && t.output[k].id in t.processed
      {
        if k < |s1.output| {
          assert k == |s.output| && t.output[k] == s1.output[k];
          assert ids[0] in ids;
        } else {
          var x := t.output[k].id;
          assert x in ids[1..];
          var i :| 0 <= i < |ids[1..]| && ids[1..][i] == x;
          assert ids[i + 1] == x;
        }
      }
      if Increasing(ids) {
        assert Increasing(ids[1..]);
        forall j, k | |s.output| <= j < k < |t.output|
          ensures t.output[j].id < t.output[k].id
        {
          if j < |s1.output| {
            assert j == |s.output| && t.output[j] == s1.output[j];
            assert t.output[j].id == ids[0];
            var x := t.output[k].id;
            assert x in ids[1..];
            var i :| 0 <= i < |ids[1..]| && ids[1..][i] == x;
            assert ids[i + 1] == x;
          }
        }
      }
    }
  }

  /** The position of the last GET for the page of case `id` among `reqs[lo..hi]`, if any. */
  function LastRequestFor(reqs: seq<Request>, lo: nat, hi: nat, id: int): (k: Option<nat>)
    requires hi <= |reqs|
    ensures k.Some? ==> lo <= k.value < hi && reqs[k.value].caseId == id
    ensures k.Some? ==> forall j :: k.value < j < hi ==> reqs[j].caseId != id
    ensures k.None? ==> forall j :: lo <= j < hi ==> reqs[j].caseId != id
    decreases hi
  {
    if hi <= lo then None
    else if reqs[hi - 1].caseId == id then Some(hi - 1)
    else LastRequestFor(reqs, lo, hi - 1, id)
  }

  lemma LastRequestIs(reqs: seq<Request>, lo: nat, hi: nat, id: int, k: nat)
    requires hi <= |reqs| && lo <= k < hi && reqs[k].caseId == id
    requires forall j :: k < j < hi ==> reqs[j].caseId != id
    ensures LastRequestFor(reqs, lo, hi, id) == Some(k)
  {
  }

  /** Requests for other pages below `lo'` do not change which request for `id` is the last. */
  lemma LastRequestFrom(reqs: seq<Request>, lo: nat, lo': nat, hi: nat, id: int)
    requires lo <= lo' <= hi <= |reqs|
    requires forall j :: lo <= j < lo' ==> reqs[j].caseId != id
    ensures LastRequestFor(reqs, lo, hi, id) == LastRequestFor(reqs, lo', hi, id)
  {
    match LastRequestFor(reqs, lo', hi, id)
    case Some(k) => LastRequestIs(reqs, lo, hi, id, k);
    case None =>
  }

  /** The record the network's answers yield for case `id`: the last GET for its page among
      `reqs[lo..]` passed and carried a judgments section, and the record is built from it. */
  function Harvested(env: Env, reqs: seq<Request>, lo: nat, id: int): (h: Option<CaseRecord>)
    ensures h.Some? ==> h.value.id == id
  {
    match LastRequestFor(reqs, lo, |reqs|, id)
    case None => None
    case Some(k) => Fetched(env, env.net(k), id)
  }

  /** The records the answers yield for `ids`, in the order of `ids`. */
  function Harvest(env: Env, reqs: seq<Request>, lo: nat, ids: seq<int>): (h: seq<CaseRecord>)
    ensures |h| <= |ids|
    decreases |ids|
  {
    if |ids| == 0 then []
    else
      Written(Harvested(env, reqs, lo, ids[0])) + Harvest(env, reqs, lo, ids[1..])
  }

  /** A record is harvested exactly for the listed ids the answers yield one for, and it is
      the record they yield. */
  lemma {:induction false} HarvestMembers(env: Env, reqs: seq<Request>, lo: nat, ids: seq<int>)
    ensures forall r :: r in Harvest(env, reqs, lo, ids) ==> r.id in ids && Harvested(env, reqs, lo, r.id) == Some(r)
    ensures forall x :: x in ids && Harvested(env, reqs, lo, x).Some? ==>
      Harvested(env, reqs, lo, x).value in Harvest(env, reqs, lo, ids)
    decreases |ids|
  {
    if |ids| > 0 {
      HarvestMembers(env, reqs, lo, ids[1..]);
      assert forall x :: x in ids ==> x == ids[0] || x in ids[1..];
      assert forall x :: x in ids[1..] ==> x in ids;
    }
  }

  lemma {:induction false} HarvestFrom(env: Env, reqs: seq<Request>, lo: nat, lo': nat, ids: seq<int>)
    requires lo <= lo' <= |reqs|
    requires forall y, j :: y in ids && lo <= j < lo' ==> reqs[j].caseId != y
    ensures Harvest(env, reqs, lo, ids) == Harvest(env, reqs, lo', ids)
    decreases |ids|
  {
    if |ids| > 0 {
      assert ids[0] in ids;
      LastRequestFrom(reqs, lo, lo', |reqs|, ids[0]);
      assert forall y :: y in ids[1..] ==> y in ids;
      HarvestFrom(env, reqs, lo, lo', ids[1..]);
    }
  }

  /** One step of the loop: `StepHarvestOf` for the first id of the list, with `r2` any trace
      that extends the step's own and whose later requests are all for ids of `rest`. */
  lemma StepHarvest(env: Env, s: State, x: int, r2: seq<Request>, rest: seq<int>)
    requires CursorOk(s) && !Resolved(s, x) && x !in rest
    requires ProcessSingleCase(env, s, x).requests <= r2
    requires forall y, k :: y !in rest && |ProcessSingleCase(env, s, x).requests| <= k < |r2| ==> r2[k].caseId != y
    ensures ProcessSingleCase(env, s, x).output == s.output + Written(Harvested(env, r2, |s.requests|, x))
    ensures Harvest(env, r2, |s.requests|, rest) == Harvest(env, r2, |ProcessSingleCase(env, s, x).requests|, rest)
  {
    var s1 := ProcessSingleCase(env, s, x);
    StepHarvestOf(env, s.requests, s1.requests, r2, s.output, s1.output, x, rest);
  }

  /** One step of the loop, seen from the end of the loop, in terms of the request traces and
      outputs before the step (`r0`, `o0`), after it (`r1`, `o1`) and at the end (`r2`): the
      record the first id's fetch wrote is the one the answers yield for it, and the later
      ids' records do not depend on the first id's requests. */
  lemma StepHarvestOf(env: Env, r0: seq<Request>, r1: seq<Request>, r2: seq<Request>,
                      o0: seq<CaseRecord>, o1: seq<CaseRecord>, x: int, rest: seq<int>)
    requires r0 <= r1 <= r2 && |r1| > |r0| && x !in rest
    requires forall k :: |r0| <= k < |r1| ==> r1[k].caseId == x
    requires forall y, k :: y !in rest && |r1| <= k < |r2| ==> r2[k].caseId != y
    requires o1 == o0 + Written(Fetched(env, env.net(|r1| - 1), x))
    ensures o1 == o0 + Written(Harvested(env, r2, |r0|, x))
    ensures Harvest(env, r2, |r0|, rest) == Harvest(env, r2, |r1|, rest)
  {
    LastRequestOfStep(r0, r1, r2, x, rest);
    HarvestedOfStep(env, r0, r1, r2, x);
    OtherPagesOfStep(r0, r1, r2, x, rest);
    HarvestFrom(env, r2, |r0|, |r1|, rest);
  }

  lemma LastRequestOfStep(r0: seq<Request>, r1: seq<Request>, r2: seq<Request>, x: int, rest: seq<int>)
    requires r0 <= r1 <= r2 && |r1| > |r0| && x !in rest
    requires forall k :: |r0| <= k < |r1| ==> r1[k].caseId == x
    requires forall y, k :: y !in rest && |r1| <= k < |r2| ==> r2[k].caseId != y
    ensures LastRequestFor(r2, |r0|, |r2|, x) == Some(|r1| - 1)
  {
    var k := |r1| - 1;
    assert r2[k] == r1[k];
    LastRequestIs(r2, |r0|, |r2|, x, k);
  }

  lemma HarvestedOfStep(env: Env, r0: seq<Request>, r1: seq<Request>, r2: seq<Request>, x: int)
    requires |r1| > 0 && LastRequestFor(r2, |r0|, |r2|, x) == Some(|r1| - 1)
    ensures Harvested(env, r2, |r0|, x) == Fetched(env, env.net(|r1| - 1), x)
  {
  }

  lemma OtherPagesOfStep(r0: seq<Request>, r1: seq<Request>, r2: seq<Request>, x: int, rest: seq<int>)
    requires r0 <= r1 <= r2 && x !in rest
    requires forall k :: |r0| <= k < |r1| ==> r1[k].caseId == x
    ensures forall y, j :: y in rest && |r0| <= j < |r1| ==> r2[j].caseId != y
  {
    forall y, j | y in rest && |r0| <= j < |r1|
      ensures r2[j].caseId != y
    {
      assert r2[j] == r1[j];
    }
  }

  /** The tail of a duplicate-free list is duplicate-free and misses the head. */
  lemma DistinctTail(ids: seq<int>)
    requires |ids| > 0 && Distinct(ids)
    ensures Distinct(ids[1..]) && ids[0] !in ids[1..]
    ensures forall y :: y in ids[1..] ==> y in ids
  {
    assert forall i :: 0 <= i < |ids| - 1 ==> ids[1..][i] == ids[i + 1];
  }

  /** Over distinct, unknown ids, the loop appends exactly the records the network's answers
      yield, one per id whose last GET passed and carried a judgments section, in the order
      of the ids. */
  lemma {:induction false} ProcessAllHarvest(env: Env, s: State, ids: seq<int>)
    requires CursorOk(s) && Distinct(ids) && forall x :: x in ids ==> !Resolved(s, x)
    ensures ProcessAll(env, s, ids).output == s.output + Harvest(env, ProcessAll(env, s, ids).requests, |s.requests|, ids)
    decreases |ids|
  {
    var t := ProcessAll(env, s, ids);
    if |ids| == 0 {
      assert s.output + [] == s.output;
    } else {
      var x := ids[0];
      var rest := ids[1..];
      var s1 := ProcessSingleCase(env, s, x);
      assert t == ProcessAll(env, s1, rest);
      assert x in ids;
      DistinctTail(ids);
      assert forall y :: y in rest ==> !Resolved(s1, y);
      ProcessAllHarvest(env, s1, rest);
      ProcessAllRequests(env, s1, rest);
      StepHarvest(env, s, x, t.requests, rest);
      HarvestCons(env, t.requests, |s.requests|, ids);
      Chain(s.output, s1.output, t.output, Written(Harvested(env, t.requests, |s.requests|, x)),
            Harvest(env, t.requests, |s.requests|, rest), Harvest(env, t.requests, |s1.requests|, rest),
            Harvest(env, t.requests, |s.requests|, ids));
    }
  }

  lemma Chain(o0: seq<CaseRecord>, o1: seq<CaseRecord>, o2: seq<CaseRecord>, w: seq<CaseRecord>,
              hA: seq<CaseRecord>, hB: seq<CaseRecord>, hIds: seq<CaseRecord>)
    requires o1 == o0 + w && o2 == o1 + hB && hA == hB && hIds == w + hA
    ensures o2 == o0 + hIds
  {
  }

  lemma HarvestCons(env: Env, reqs: seq<Request>, lo: nat, ids: seq<int>)
    requires |ids| > 0
    ensures Harvest(env, reqs, lo, ids) == Written(Harvested(env, reqs, lo, ids[0])) + Harvest(env, reqs, lo, ids[1..])
  {
  }

  /** The id `x` was fetched in the window `t.requests[lo..]`, and its outcome follows the last
      answer for its page there: failed exactly when that answer is a failure, and processed
      exactly when it is not. */
  predicate Attempted(env: Env, t: State, lo: nat, x: int) {
    match LastRequestFor(t.requests, lo, |t.requests|, x)
    case None => false
    case Some(k) => (x in t.failed <==> IsFailure(env, env.net(k))) && (x in t.processed <==> !IsFailure(env, env.net(k)))
  }

  /** Over distinct, unknown ids, the loop fetches every id, and each is classified by the
      last answer for its page. */
  lemma {:induction false} ProcessAllAttempts(env: Env, s: State, ids: seq<int>)
    requires Inv(s) && Distinct(ids) && forall x :: x in ids ==> !Resolved(s, x)
    ensures forall x :: x in ids ==> Attempted(env, ProcessAll(env, s, ids), |s.requests|, x)
    decreases |ids|
  {
    if |ids| > 0 {
      var t := ProcessAll(env, s, ids);
      var x := ids[0];
      var rest := ids[1..];
      var s1 := ProcessSingleCase(env, s, x);
      assert t == ProcessAll(env, s1, rest);
      assert x in ids;
      DistinctTail(ids);
      assert forall y :: y in rest ==> !Resolved(s1, y);
      ProcessAllAttempts(env, s1, rest);
      ProcessAllRequests(env, s1, rest);
      StepAttempts(env, s, s1, t, x, rest);
      assert forall y :: y in ids ==> y == x || y in rest;
    }
  }

  /** One step of the loop, seen from its end `t`: the first id keeps the outcome its own
      fetch gave it, since none of the later GETs is for it and the sets only grow while
      staying disjoint; and the later ids' last GETs all come after the first id's. */
  lemma StepAttempts(env: Env, s: State, s1: State, t: State, x: int, rest: seq<int>)
    requires Inv(s) && !Resolved(s, x) && x !in rest
    requires s1 == ProcessSingleCase(env, s, x)
    requires Inv(t) && s1.processed <= t.processed && s1.failed <= t.failed
    requires s1.requests <= t.requests
    requires forall y, k :: y !in rest && |s1.requests| <= k < |t.requests| ==> t.requests[k].caseId != y
    requires forall y :: y in rest ==> Attempted(env, t, |s1.requests|, y)
    ensures Attempted(env, t, |s.requests|, x)
    ensures forall y :: y in rest ==> Attempted(env, t, |s.requests|, y)
  {
    LastRequestOfStep(s.requests, s1.requests, t.requests, x, rest);
    forall y | y in rest
      ensures Attempted(env, t, |s.requests|, y)
    {
      AttemptedFrom(env, t, |s.requests|, |s1.requests|, y);
    }
  }

  /** GETs for other pages below `lo'` do not change whether, and how, `y` was attempted. */
  lemma AttemptedFrom(env: Env, t: State, lo: nat, lo': nat, y: int)
    requires lo <= lo' <= |t.requests|
    requires forall j :: lo <= j < lo' ==> t.requests[j].caseId != y
    requires Attempted(env, t, lo', y)
    ensures Attempted(env, t, lo, y)
  {
    LastRequestFrom(t.requests, lo, lo', |t.requests|, y);
  }

  /** For an ascending id list, the loop's GETs go to the pages in ascending id order. */
  lemma {:induction false} ProcessAllInOrder(env: Env, s: State, ids: seq<int>)
    requires CursorOk(s) && Increasing(ids)
    ensures forall j, k :: |s.requests| <= j < k < |ProcessAll(env, s, ids).requests| ==>
      ProcessAll(env, s, ids).requests[j].caseId <= ProcessAll(env, s, ids).requests[k].caseId
    decreases |ids|
  {
    if |ids| > 0 {
      var t := ProcessAll(env, s, ids);
      var x := ids[0];
      var rest := ids[1..];
      var s1 := ProcessSingleCase(env, s, x);
      assert t == ProcessAll(env, s1, rest);
      assert Increasing(rest);
      ProcessAllInOrder(env, s1, rest);
      ProcessAllRequests(env, s1, rest);
      forall j, k | |s.requests| <= j < k < |t.requests|
        ensures t.requests[j].caseId <= t.requests[k].caseId
      {
        if j < |s1.requests| {
          assert t.requests[j] == s1.requests[j];
          if k < |s1.requests| {
            assert t.requests[k] == s1.requests[k];
          } else {
            var y := t.requests[k].caseId;
            assert y in rest;
            var i :| 0 <= i < |rest| && rest[i] == y;
            assert ids[i + 1] == y;
          }
        }
      }
    }
  }

  /** `save_cases(start, end)`. */
  function SaveCases(env: Env, s: State, start: int, end: int): (t: State)
    requires CursorOk(s)
    ensures CursorOk(t) && (Inv(s) ==> Inv(t)) && (LogsAgree(s) ==> LogsAgree(t))
    ensures ResolvedIds(t) == ResolvedIds(s) + Range(start, end)
    ensures s.processed <= t.processed && s.failed <= t.failed && t.proxies == s.proxies
    ensures s.output <= t.output
    ensures s.processedLog <= t.processedLog && s.failedLog <= t.failedLog
    ensures forall k :: |s.output| <= k < |t.output| ==>
      start <= t.output[k].id <= end && !Resolved(s, t.output[k].id) && t.output[k].id in t.processed
    ensures forall j, k :: |s.output| <= j < k < |t.output| ==> t.output[j].id < t.output[k].id
    // The new records are exactly those the answers yield for the pending ids, in ascending order.
    ensures t.output == s.output + Harvest(env, t.requests, |s.requests|, Pending(s, start, end))
    // Every GET is for a pending id, in ascending id order, and every pending id is fetched
    // and classified by the last answer for its page.
    ensures forall k :: |s.requests| <= k < |t.requests| ==> t.requests[k].caseId in Pending(s, start, end)
    ensures forall j, k :: |s.requests| <= j < k < |t.requests| ==> t.requests[j].caseId <= t.requests[k].caseId
    ensures Inv(s) ==> forall x :: x in Pending(s, start, end) ==> Attempted(env, t, |s.requests|, x)
  {
    var ids := Pending(s, start, end);
    assert Elements(ids) + ResolvedIds(s) == Range(start, end) + ResolvedIds(s);
    ProcessAllRecords(env, s, ids);
    ProcessAllHarvest(env, s, ids);
    ProcessAllRequests(env, s, ids);
    ProcessAllInOrder(env, s, ids);
    var t := ProcessAll(env, s, ids);
    if Inv(s) then ProcessAllAttempts(env, s, ids); t else t
  }

  /** Both directions for `save_cases`: a new record is one the answers yield for a pending id,
      and every pending id the answers yield a record for has that record appended. */
  lemma SaveCasesHarvest(env: Env, s: State, start: int, end: int)
    requires CursorOk(s)
    ensures var t := SaveCases(env, s, start, end);
      && (forall k :: |s.output| <= k < |t.output| ==>
            t.output[k].id in Pending(s, start, end)
            && Harvested(env, t.requests, |s.requests|, t.output[k].id) == Some(t.output[k]))
      && (forall x :: x in Pending(s, start, end) && Harvested(env, t.requests, |s.requests|, x).Some? ==>
            Harvested(env, t.requests, |s.requests|, x).value in t.output[|s.output|..])
  {
    var t := SaveCases(env, s, start, end);
    var h := Harvest(env, t.requests, |s.requests|, Pending(s, start, end));
    HarvestMembers(env, t.requests, |s.requests|, Pending(s, start, end));
    assert t.output[|s.output|..] == h;
    forall k | |s.output| <= k < |t.output|
      ensures t.output[k] in h
    {
      assert t.output[k] == h[k - |s.output|];
    }
  }
}

=== FILE: wrappers.dfy ===
/** Small shared helpers: an optional value and facts about identifier sequences. */
module Wrappers {

  /** The conventional Some/None datatype, standing for Python's `Optional`. */
  datatype Option<+T> = None | Some(value: T) {

    /** The wrapped value, or `default` when there is none. */
    function GetOr(default: T): T {
      match this
      case Some(v) => v
      case None => default
    }
  }

  /** The set of elements of a sequence (Python's `set(xs)`). */
  function Elements(xs: seq<int>): set<int> {
    set x | x in xs
  }

  /** No element occurs twice. */
  predicate Distinct(xs: seq<int>) {
    forall i, j :: 0 <= i < j < |xs| ==> xs[i] != xs[j]
  }

  /** Strictly ascending. */
  predicate Increasing(xs: seq<int>) {
    forall i, j :: 0 <= i < j < |xs| ==> xs[i] < xs[j]
  }

  /** `xs` lists every element of `s` exactly once, in some order. */
  predicate Enumerates(xs: seq<int>, s: set<int>) {
    Distinct(xs) && Elements(xs) == s
  }

  /** `lo <= x <= hi`, as a predicate the comprehension below can be triggered on. */
  predicate Between(lo: int, x: int, hi: int) {
    lo <= x <= hi
  }

  /** The closed integer interval [lo, hi] as a set. The bare bounds let Dafny see that the
      set is finite; `Between` gives its quantifier a trigger. */
  function Range(lo: int, hi: int): set<int> {
    set x | lo <= x <= hi && Between(lo, x, hi)
  }

  lemma ElementsAppend(xs: seq<int>, x: int)
    ensures Elements(xs + [x]) == Elements(xs) + {x}
  {
    assert forall y :: y in xs + [x] <==> y in xs || y == x;
  }
}
